=== FILE: README.md ===
# Recharge API client: request construction, in Dafny

This project models the request-building core of a small TypeScript client for
the Recharge subscription-commerce REST API. The resource operations are:

- plans: create, get, list, update, delete;
- products: create, get, update, delete;
- subscriptions: get, list, update, swapProduct.

Each is one call of the client's `request(path, data, options)` function. That call
becomes one `fetch` of `https://api.rechargeapps.com` + `path` with two fixed
headers and the options' method. The operation then returns either the decoded
response or one field of it (`.plan`, `.plans`, `.subscription`,
`.subscriptions`).

The model is made of total functions over immutable data:

- `Client.Request` builds the `WireRequest` (the URL plus the `fetch` init
  object) exactly as `request` does. It concatenates the URL with no separator
  and spreads the options. The fixed headers replace any option headers. The
  `data` argument is never used.
- The resource modules (`Plan`, `Product`, `Subscription`) each build one
  `Resource.Call` per operation: path, payload, options and what to unwrap.
  They return an `Exchange`: the request sent and how the operation's promise
  settles. The decoded response body is a parameter, because the network is
  not modelled.
- `Query.Serialize` is the query-string builder of the two `list` operations.
  It emits `key=value` pieces in key order and joins them with `&`. Array
  values are comma-joined and nothing is escaped.
- `Routes.Decode` is an independent reading of a request, the way a server
  reads it: method, path segments and the query after `?`. Route contracts
  are stated through it. So they say which endpoint and which id each
  operation reaches, not how the path text is glued together. A string id is
  *segment-safe* (`Routes.SegmentSafe`) when it holds no `/`, `?`, `#`, `\`,
  `%`, tab, CR or LF and is not `.` or `..`. Such an id reaches the server as
  one path segment, spelled as written.
  `Query.Parse` and `Decimal.ParseInt` are the readers for the query and for
  numeric plan ids.

The model is faithful to the code as written, including its oddities:

- Subscription `update` (and so `swapProduct`) issues `PUT /products/<id>`.
- No operation sends a body. `request` never forwards `data`, so a swap's
  product and variant ids never leave the client
  (`Subscription.SwapIdsNeverSent`).
- The client object wires up only the product and subscription resources.
  `Recharge` has no plan field, and the `Plan` module is modelled on its own.

Files: `wrappers.dfy` (Option), `strings.dfy` (join, split, count and their
lemmas), `decimal.dfy` (number-to-text rendering of ids, and a reader for it),
`js_values.dfy` (JSON values and property access), `query.dfy`, `client.dfy`,
`routes.dfy`, `resource.dfy`, `plan.dfy`, `product.dfy`, `subscription.dfy`,
`recharge.dfy`.

## Model

| member | source | states |
|---|---|---|
| Client.Request | src/index.ts:35-52 | The URL is the base URL followed directly by the path. Exactly two headers are sent: `X-Recharge-Access-Token` with the configured token and `Content-Type: application/json`; no other header name has a value. The method is the options' method, and GET when there are no options or the options set no method. The body comes only from the options, never from `data`. |
| Client.DataNeverSent | src/index.ts:35-49 | Two calls that differ only in `data` send identical requests. |
| Client.OptionHeadersOverridden | src/index.ts:46-48 | Headers carried in the options have no effect: the fixed two are always the headers sent. |
| Recharge.New | src/index.ts:20-33 | The product and subscription resources share one `request`. At construction it carries the configured access token and the base URL `https://api.rechargeapps.com`, and the client's own `options` and `baseUrl` hold the same values. |
| Recharge.RequestsGoToRecharge | src/index.ts:26-49 | Every request a constructed client issues goes to `https://api.rechargeapps.com` + path, with exactly the token and JSON content-type headers. |
| Recharge.SubscriptionUpdateHitsProductRoute | src/resources/subscription.ts:104-112 | Subscription `update` sends exactly the request product `update` sends for the same id, whatever the payloads. |
| JsValues.Property | src/resources/plan.ts:96 | Unwrapping a field rejects, with a TypeError naming the key, exactly when the response is null or undefined. On an object, a present field yields its value and a missing one yields `undefined`. Any other value yields `undefined`. |
| Query.Serialize | src/resources/plan.ts:108-116 | The query text is empty exactly when there are no parameters. |
| Query.RoundTrip | src/resources/plan.ts:108-116 | For keys free of `&` and `=`, and value texts free of `&`, a receiver splitting on `&` and then on the first `=` reads back every key with its value text, in key order, one pair per key. |
| Query.Separators | src/resources/plan.ts:116 | The pieces are separated by single `&`. When no key or value text holds `&`, n >= 1 parameters give exactly n-1 of them. |
| Query.OneEqualsPerPair | src/resources/plan.ts:114 | Each parameter contributes exactly one `=`: when keys and values hold none, the query holds n of them. |
| Query.ItemsRoundTrip | src/resources/plan.ts:111-113 | A non-empty array value is its items joined by `,`. Split on `,`, it gives the items back when none contains a comma. |
| Query.SerializeOne | src/resources/plan.ts:108-116 | For every key and value, one parameter serialises as the key, one `=` and the value text, all verbatim. |
| Query.SerializeAppend | src/resources/plan.ts:108-116 | For every non-empty parameter list and every key and value, one more parameter appends `&`, the key, `=` and the value text verbatim. Nothing is escaped, whatever characters they hold. |
| Query.NoEscaping | src/resources/subscription.ts:93-95 | Illustrations of the missing escaping: a value `1&b=2` serialises exactly like two parameters `a=1` and `b=2`, and an array serialises like its comma-joined text. |
| Decimal.IntRoundTrip | src/resources/plan.ts:102 | The decimal text of an integral id reads back as that id. |
| Plan.Create | src/resources/plan.ts:89-96 | The server decodes `POST /plans` with no query. No body is sent. The result is the response's `plan` field. The URL is exactly base + the path, and exactly the two fixed headers are sent. |
| Plan.Get | src/resources/plan.ts:100-104 | The server decodes a GET of `/plans/<segment>` whose segment reads back as the id, with no query. No method option is set. No body is sent. The response is returned whole. The URL is exactly base + the path, and exactly the two fixed headers are sent. |
| Plan.List | src/resources/plan.ts:107-121 | For all parameters, the request is a GET (no method option) of base + `/plans?` + the serialised query, with the two fixed headers. The URL is exactly base + `/plans?` if and only if there are no parameters. For parameters satisfying `Query.Safe` (no separator, and nothing a URL parser strips or the server decodes, in any key or value), the server decodes GET `/plans` with a query that parses back to the parameters in order. The result is the response's `plans` field. |
| Plan.Update | src/resources/plan.ts:124-132 | The server decodes `PUT /plans/<id>` and reads the id back. The partial payload is not sent. The result is the response's `plan` field. The URL is exactly base + the path, and exactly the two fixed headers are sent. |
| Plan.Delete | src/resources/plan.ts:136-142 | The server decodes `DELETE /plans/<id>` and reads the id back. No payload is passed and no body is sent. The response is returned whole. The URL is exactly base + the path, and exactly the two fixed headers are sent. |
| Plan.DistinctIdsDistinctUrls | src/resources/plan.ts:100-104 | Two distinct plan ids never reach the same URL. |
| Product.Create | src/resources/product.ts:75-81 | The server decodes `POST /products`. No body is sent. The response is returned whole. The URL is exactly base + the path, and exactly the two fixed headers are sent. |
| Product.Get | src/resources/product.ts:83-88 | The URL is base + `/products/` + the id verbatim. For a segment-safe id, the server decodes GET of exactly that item. No method option is set. The response is returned whole. Exactly the two fixed headers are sent. |
| Product.Update | src/resources/product.ts:91-100 | The URL is base + `/products/` + id, and the method option is PUT, for every id. For a segment-safe id, the server decodes `PUT /products/<id>`. The payload is not sent. The response is returned whole. Exactly the two fixed headers are sent. |
| Product.Delete | src/resources/product.ts:103-110 | The URL is base + `/products/` + id, and the method option is DELETE, for every id. For a segment-safe id, the server decodes `DELETE /products/<id>`. No body is sent. The response is returned whole. Exactly the two fixed headers are sent. |
| Subscription.Get | src/resources/subscription.ts:83-89 | The URL is base + `/subscriptions/` + id. For a segment-safe id, the server decodes GET of that subscription. No method option is set. The result is the response's `subscription` field. Exactly the two fixed headers are sent. |
| Subscription.List | src/resources/subscription.ts:92-101 | For all parameters, the request is a GET (no method option) of base + `/subscriptions?` + the serialised query, with the two fixed headers. The URL is exactly base + `/subscriptions?` if and only if there are no parameters. For parameters satisfying `Query.Safe` (no separator, and nothing a URL parser strips or the server decodes, in any key or value), the query parses back to the parameters in key order, one pair per key. The result is the response's `subscriptions` field. |
| Subscription.Update | src/resources/subscription.ts:104-113 | The URL is base + `/products/` + id, not `/subscriptions/<id>`, and the method option is PUT, for every id. For a segment-safe id, the server decodes `PUT /products/<id>`. The payload is not sent. The result is the response's `subscription` field. Exactly the two fixed headers are sent. |
| Subscription.SwapPayload | src/resources/subscription.ts:120-123 | The payload has exactly the keys `external_variant_id` and `external_product_id`. Each holds exactly `ecommerce`, set to the variant id and the product id respectively. |
| Subscription.SwapProduct | src/resources/subscription.ts:115-125 | The result is exactly `update(id, payload)`: the method option PUT for every id, the route `PUT /products/<id>` for a segment-safe id, and the same unwrapping of `subscription`. Exactly the two fixed headers are sent. |
| Subscription.SwapIdsNeverSent | src/resources/subscription.ts:115-125 | Swaps of one subscription send the same request whatever the product and variant ids, because the payload is dropped. |

## Left out

- `fetch` and `response.json()` are network I/O and are not modelled. The decoded response body is a parameter of each operation. Network failures and bodies that are not JSON (which would reject) are not modelled.
- Promises and `async`/`await` are not modelled: each operation is one request followed by one settlement, with nothing to interleave.
- The TypeScript interfaces and parameter classes are type declarations only. Payloads and responses are an untyped JSON value (`JsValues.Value`), and list parameters are a sequence of (key, text or array of text) pairs.
- List parameters are taken in the order given, standing for the order `Object.keys` returns. JavaScript's rule that integer-like keys come first is not modelled.
- JavaScript coercion of `Date`, `number` and `undefined` parameter values to text (for example `key=undefined`) is not modelled. Values arrive as text or arrays of text.
- Plan ids are `Decimal.SafeInt`: integers of magnitude at most 2^53 - 1 (`Number.MAX_SAFE_INTEGER`), which `${id}` renders as their exact decimal digits. Larger ids are not modelled: beyond that bound `${id}` prints the shortest digits that read back as the same double (2^60 renders as `1152921504606847000`), and from 1e21 on it uses exponent form. Fractional ids, `NaN`, the infinities and `-0` are not modelled either.
- `Recharge.New` fixes the access token and base URL in the shared `request` when the client is built. In the source, `request` reads `this.options.accessToken` and `this.baseUrl` each time it is called, and `this.options` is the object the caller passed in. A later assignment to `client.baseUrl` or a change to that object would therefore change every later request. The model has no mutable client state, so it does not capture this.
- `RequestOptions` has `headers` and `body` fields beyond the declared `method`, to show what the `...options` spread copies. No resource operation sets them.
- `JsValues.Property` models property access only for keys that name no built-in property of a JavaScript value. That covers the four keys the resources read.
- `Routes.Decode` reads the text handed to `fetch`, before `fetch`'s URL parser normalises it, and it does not percent-decode. The parser turns `\` into `/` in an https path, resolves `.` and `..` segments (also spelled with `%2e`), and strips tab, CR and LF everywhere; the server percent-decodes. So the route contracts claim nothing for ids that are not segment-safe, nor for list parameters outside `Query.Safe`: keys holding `&`, `=`, `#`, `%`, tab, CR or LF, or value texts holding `&`, `#`, `%`, tab, CR or LF. For such ids and parameters the URL text and the method are still stated exactly. `Query.NoEscaping` shows what goes wrong with unescaped separators.
- `Client.HeaderValue` compares header names exactly, although HTTP treats them case-insensitively.
- The unused `URLSearchParams` import has no behaviour.
- `request` calls `fetch` once and always decodes JSON. There is no rate limiting, queueing, 204 handling or error classification, so none is modelled.

=== FILE: client.dfy ===
/** The client's `request` function: the outgoing HTTP request it hands to
    `fetch` for a path, a payload and per-call options. */
module Client {
  import opened Wrappers
  import opened JsValues

  datatype Method = GET | POST | PUT | DELETE

  /** Header name/value pairs in insertion order. */
  type Headers = seq<(string, string)>

  /** The per-call options object. `verb` is the declared `method` field; `headers` and
      `body` stand for fields an untyped caller could add, which the `...options`
      spread copies like any other. */
  datatype RequestOptions = RequestOptions(verb: Option<Method>, headers: Option<Headers>, body: Option<string>)

  /** The `{ method: m }` literal every resource operation passes. */
  function MethodOnly(m: Method): RequestOptions {
    RequestOptions(Some(m), None, None)
  }

  /** The second argument of `fetch`. */
  datatype FetchInit = FetchInit(verb: Option<Method>, headers: Headers, body: Option<string>)

  /** Everything `fetch` is given: the URL and the init object. */
  datatype WireRequest = WireRequest(url: string, init: FetchInit)

  /** The client state `request` reads through `this` when it runs. */
  datatype Requester = Requester(accessToken: string, baseUrl: string)

  /** What every resource is constructed with: the client's `request`. */
  datatype ResourceOptions = ResourceOptions(request: Requester)

  const AccessTokenHeader: string := "X-Recharge-Access-Token"
  const ContentTypeHeader: string := "Content-Type"
  const JsonContentType: string := "application/json"

  function FixedHeaders(accessToken: string): Headers {
    [(AccessTokenHeader, accessToken), (ContentTypeHeader, JsonContentType)]
  }

  /** The value of the first header called `name`. */
  function HeaderValue(h: Headers, name: string): Option<string> {
    if |h| == 0 then None
    else if h[0].0 == name then Some(h[0].1)
    else HeaderValue(h[1..], name)
  }

  /** The method `fetch` uses: the one in the init object, GET when it has none. */
  function SentMethod(init: FetchInit): Method {
    init.verb.GetOr(GET)
  }

  /** `{ ...options, headers: { ...fixed } }`: every option is copied, then the
      fixed headers replace whatever `headers` the options held. */
  function Spread(options: Option<RequestOptions>, headers: Headers): FetchInit {
    match options
    case None => FetchInit(None, headers, None)
    case Some(o) => FetchInit(o.verb, headers, o.body)
  }

  /** The request `fetch` receives for `request(path, data, options)`. */
  function Request(rq: Requester, path: string, data: Option<Value>, options: Option<RequestOptions>): (w: WireRequest)
    ensures |w.url| == |rq.baseUrl| + |path|
    ensures w.url[..|rq.baseUrl|] == rq.baseUrl && w.url[|rq.baseUrl|..] == path
    ensures |w.init.headers| == 2
    ensures HeaderValue(w.init.headers, AccessTokenHeader) == Some(rq.accessToken)
    ensures HeaderValue(w.init.headers, ContentTypeHeader) == Some(JsonContentType)
    ensures forall name :: name != AccessTokenHeader && name != ContentTypeHeader ==>
              HeaderValue(w.init.headers, name) == None
    ensures options.None? ==> SentMethod(w.init) == GET
    ensures options.Some? ==> SentMethod(w.init) == options.value.verb.GetOr(GET)
    ensures options.None? ==> w.init.body == None
    ensures options.Some? ==> w.init.body == options.value.body
  {
    FixedHeadersOnly(rq.accessToken);
    WireRequest(rq.baseUrl + path, Spread(options, FixedHeaders(rq.accessToken)))
  }

  lemma FixedHeadersOnly(accessToken: string)
    ensures forall name :: name != AccessTokenHeader && name != ContentTypeHeader ==>
              HeaderValue(FixedHeaders(accessToken), name) == None
  {
    var h := FixedHeaders(accessToken);
    forall name | name != AccessTokenHeader && name != ContentTypeHeader
      ensures HeaderValue(h, name) == None
    {
      assert h[0].0 != name;
      assert HeaderValue(h, name) == HeaderValue(h[1..], name);
      assert h[1..][0].0 != name;
      assert h[1..][1..] == [];
    }
  }

  /** `data` is never forwarded: two calls differing only in their payload send the same request. */
  lemma DataNeverSent(rq: Requester, path: string, d1: Option<Value>, d2: Option<Value>, options: Option<RequestOptions>)
    ensures Request(rq, path, d1, options) == Request(rq, path, d2, options)
  {
  }

  /** Headers carried in the options are overridden: only the fixed two are sent. */
  lemma OptionHeadersOverridden(rq: Requester, path: string, data: Option<Value>, o: RequestOptions, h: Headers)
    ensures Request(rq, path, data, Some(o.(headers := Some(h)))) == Request(rq, path, data, Some(o.(headers := None)))
    ensures Request(rq, path, data, Some(o.(headers := Some(h)))).init.headers == FixedHeaders(rq.accessToken)
  {
  }
}

=== FILE: decimal.dfy ===
/** How a JavaScript template literal renders an integral number (`${id}`) in
    the safe-integer range, and a reader that turns that text back into the number. */
module Decimal {
  import opened Wrappers

  /** `Number.MAX_SAFE_INTEGER`, 2^53 - 1: up to this magnitude every integer is
      a distinct `number` and `${id}` prints its exact decimal digits. */
  const MaxSafeInteger: int := 0x1F_FFFF_FFFF_FFFF

  /** The integral values of a `number` whose decimal rendering `FromInt` models. */
  type SafeInt = i: int | -MaxSafeInteger <= i <= MaxSafeInteger

  predicate IsDigit(ch: char) {
    '0' <= ch <= '9'
  }

  predicate AllDigits(s: string) {
    forall i :: 0 <= i < |s| ==> IsDigit(s[i])
  }

  function DigitChar(d: nat): (ch: char)
    requires d < 10
    ensures IsDigit(ch)
  {
    ('0' as int + d) as char
  }

  function DigitValue(ch: char): (d: nat)
    requires IsDigit(ch)
    ensures d < 10
  {
    ch as int - '0' as int
  }

  /** Shortest decimal text of `n`: digits only, no leading zero unless `n` is zero. */
  function FromNat(n: nat): (s: string)
    ensures |s| >= 1
    ensures AllDigits(s)
    ensures s[0] == '0' ==> n == 0
  {
    if n < 10 then [DigitChar(n)] else FromNat(n / 10) + [DigitChar(n % 10)]
  }

  /** `${i}` for an integer `i`: a minus sign before the magnitude when negative. */
  function FromInt(i: int): (s: string)
    ensures |s| >= 1
    ensures i < 0 <==> s[0] == '-'
    ensures forall k :: 0 <= k < |s| ==> IsDigit(s[k]) || (k == 0 && s[k] == '-')
  {
    if i < 0 then "-" + FromNat(-i) else FromNat(i)
  }

  /** The value of a string of digits, most significant first. */
  function ValueOf(s: string): nat
    requires AllDigits(s)
  {
    if |s| == 0 then 0 else 10 * ValueOf(s[..|s| - 1]) + DigitValue(s[|s| - 1])
  }

  function ParseNat(s: string): Option<nat> {
    if |s| > 0 && AllDigits(s) then Some(ValueOf(s)) else None
  }

  function ParseInt(s: string): Option<int> {
    if |s| > 0 && s[0] == '-' then
      match ParseNat(s[1..])
      case Some(n) => Some(0 - n as int)
      case None => None
    else ParseNat(s)
  }

  lemma {:induction false} ValueOfFromNat(n: nat)
    ensures ValueOf(FromNat(n)) == n
  {
    if n >= 10 {
      var s := FromNat(n);
      ValueOfFromNat(n / 10);
      assert s[..|s| - 1] == FromNat(n / 10);
    }
  }

  /** Reading the rendered text of any integer gives that integer back. */
  lemma IntRoundTrip(i: int)
    ensures ParseInt(FromInt(i)) == Some(i)
  {
    if i < 0 {
      ValueOfFromNat(-i);
      assert FromInt(i)[1..] == FromNat(-i);
    } else {
      ValueOfFromNat(i);
    }
  }

  /** Distinct integers render to distinct text, so distinct ids reach distinct paths. */
  lemma FromIntInjective(i: int, j: int)
    ensures FromInt(i) == FromInt(j) <==> i == j
  {
    IntRoundTrip(i);
    IntRoundTrip(j);
  }
}

=== FILE: js_values.dfy ===
/** The JavaScript values a resource call hands to `request` as its payload
    and receives back from `response.json()`, and property access on them. */
module JsValues {
  import opened Wrappers

  /** A decoded JSON document, plus `undefined`. Numbers are kept integral. */
  datatype Value =
    | Undef
    | Null
    | Bool(b: bool)
    | Num(n: int)
    | Str(s: string)
    | Arr(items: seq<Value>)
    | Obj(fields: map<string, Value>)

  /** The only failure property access can raise. */
  datatype Error = TypeError(property: string)

  /** How an awaited promise settles. */
  datatype Outcome = Resolved(value: Value) | Rejected(error: Error)

  /** `v.key` for a key that names no built-in property: the field of an object,
      `undefined` on any other non-nullish value, a TypeError on null or undefined. */
  function Property(v: Value, key: string): (r: Outcome)
    ensures r.Rejected? <==> v.Null? || v.Undef?
    ensures r.Rejected? ==> r.error == TypeError(key)
    ensures v.Obj? && key in v.fields ==> r == Resolved(v.fields[key])
    ensures v.Obj? && key !in v.fields ==> r == Resolved(Undef)
    ensures r.Resolved? && r.value != Undef ==> v.Obj? && key in v.fields && v.fields[key] == r.value
  {
    match v
    case Undef => Rejected(TypeError(key))
    case Null => Rejected(TypeError(key))
    case Obj(fields) => if key in fields then Resolved(fields[key]) else Resolved(Undef)
    case _ => Resolved(Undef)
  }

  /** Follows a chain of property names through nested objects; `None` when one is missing. */
  function Lookup(v: Value, path: seq<string>): Option<Value>
    decreases |path|
  {
    if |path| == 0 then Some(v)
    else if v.Obj? && path[0] in v.fields then Lookup(v.fields[path[0]], path[1..])
    else None
  }
}

=== FILE: plan.dfy ===
/** The plan resource: numeric ids, results unwrapped from `plan` / `plans`
    except for `get` and `delete`. */
module Plan {
  import opened Wrappers
  import opened JsValues
  import opened Decimal
  import opened Client
  import opened Routes
  import opened Resource
  import Query

  /** A rendered id is one path segment: digits and at most a leading minus. */
  lemma IdSegmentSafe(id: int)
    ensures SegmentSafe(FromInt(id))
  {
    var s := FromInt(id);
    forall k | 0 <= k < |s|
      ensures IsDigit(s[k]) || s[k] == '-'
    {
    }
    assert s != "." && s != "..";
  }

  /** The server reads `/plans/<id>` with the given verb, and the id it reads back is `id`. */
  predicate AddressesPlan(base: string, w: WireRequest, verb: Method, id: int) {
    var e := Decode(base, w);
    && e.Some?
    && e.value.verb == verb
    && |e.value.segments| == 2
    && e.value.segments[0] == "plans"
    && ParseInt(e.value.segments[1]) == Some(id)
    && e.value.query == None
  }

  function ItemPath(id: int): string {
    "/plans/" + FromInt(id)
  }

  lemma ItemRoute(base: string, w: WireRequest, id: int)
    requires w.url == base + ItemPath(id)
    ensures AddressesPlan(base, w, SentMethod(w.init), id)
  {
    assert base + ItemPath(id) == base + "/" + "plans" + "/" + FromInt(id);
    IdSegmentSafe(id);
    DecodeItem(base, w, "plans", FromInt(id));
    IntRoundTrip(id);
  }

  /** `create`: POST to `/plans`; the payload is not sent; the result is the response's `plan`. */
  function Create(res: ResourceOptions, data: Value, response: Value): (x: Exchange)
    ensures x.sent.init.body == None
    ensures x.sent.init.headers == FixedHeaders(res.request.accessToken)
    ensures x.result == Property(response, "plan")
    ensures x.sent.url == res.request.baseUrl + "/plans"
    ensures Decode(res.request.baseUrl, x.sent) == Some(Endpoint(POST, ["plans"], None))
  {
    var x := Perform(res, Call("/plans", Some(data), Some(MethodOnly(POST)), Field("plan")), response);
    assert x.sent.url == res.request.baseUrl + "/" + "plans";
    DecodeCollection(res.request.baseUrl, x.sent, "plans");
    x
  }

  /** `get`: no method option, so GET, to `/plans/<id>`; the response is returned whole. */
  function Get(res: ResourceOptions, id: SafeInt, response: Value): (x: Exchange)
    ensures x.sent.url == res.request.baseUrl + ItemPath(id)
    ensures AddressesPlan(res.request.baseUrl, x.sent, GET, id)
    ensures x.sent.init.verb == None
    ensures x.sent.init.body == None
    ensures x.sent.init.headers == FixedHeaders(res.request.accessToken)
    ensures x.result == Resolved(response)
  {
    var x := Perform(res, Call(ItemPath(id), None, None, Whole), response);
    ItemRoute(res.request.baseUrl, x.sent, id);
    x
  }

  /** `list`: GET to `/plans?` followed by the serialised parameters; the result is the response's `plans`. */
  function List(res: ResourceOptions, params: Query.Params, response: Value): (x: Exchange)
    ensures x.sent.url == res.request.baseUrl + ListPrefix("plans") + Query.Serialize(params)
    ensures x.sent.init.verb == None && SentMethod(x.sent.init) == GET
    ensures x.sent.init.headers == FixedHeaders(res.request.accessToken)
    ensures x.sent.url == res.request.baseUrl + ListPrefix("plans") <==> |params| == 0
    ensures Query.Safe(params) ==> ListsWith(res.request.baseUrl, x.sent, "plans", params)
    ensures x.sent.init.body == None
    ensures x.result == Property(response, "plans")
  {
    Listing(res, "plans", "plans", params, response)
  }

  /** `update`: PUT to `/plans/<id>`; the partial payload is not sent; the result is the response's `plan`. */
  function Update(res: ResourceOptions, id: SafeInt, data: Value, response: Value): (x: Exchange)
    ensures x.sent.url == res.request.baseUrl + ItemPath(id)
    ensures AddressesPlan(res.request.baseUrl, x.sent, PUT, id)
    ensures x.sent.init.body == None
    ensures x.sent.init.headers == FixedHeaders(res.request.accessToken)
    ensures x.result == Property(response, "plan")
  {
    var x := Perform(res, Call(ItemPath(id), Some(data), Some(MethodOnly(PUT)), Field("plan")), response);
    ItemRoute(res.request.baseUrl, x.sent, id);
    x
  }

  /** `delete`: DELETE to `/plans/<id>` with no payload; the response is returned whole. */
  function Delete(res: ResourceOptions, id: SafeInt, response: Value): (x: Exchange)
    ensures x.sent.url == res.request.baseUrl + ItemPath(id)
    ensures AddressesPlan(res.request.baseUrl, x.sent, DELETE, id)
    ensures x.sent.init.body == None
    ensures x.sent.init.headers == FixedHeaders(res.request.accessToken)
    ensures x.result == Resolved(response)
  {
    var x := Perform(res, Call(ItemPath(id), None, Some(MethodOnly(DELETE)), Whole), response);
    ItemRoute(res.request.baseUrl, x.sent, id);
    x
  }

  /** Distinct plan ids never reach the same URL. */
  lemma DistinctIdsDistinctUrls(res: ResourceOptions, i: SafeInt, j: SafeInt, response: Value)
    requires i != j
    ensures Get(res, i, response).sent.url != Get(res, j, response).sent.url
  {
    FromIntInjective(i, j);
  }
}

=== FILE: product.dfy ===
/** The product resource: string ids pasted into the path verbatim, and every
    result returned exactly as the response decoded. */
module Product {
  import opened Wrappers
  import opened JsValues
  import opened Client
  import opened Routes
  import opened Resource

  function ItemPath(id: string): string {
    "/products/" + id
  }

  /** `/products/<id>`: the id is pasted in verbatim, and when it holds no
      path-structuring character the server reads exactly that item. */
  lemma ItemRoute(base: string, w: WireRequest, id: string)
    requires w.url == base + ItemPath(id)
    ensures SegmentSafe(id) ==> Decode(base, w) == Some(Endpoint(SentMethod(w.init), ["products", id], None))
  {
    if SegmentSafe(id) {
      assert base + ItemPath(id) == base + "/" + "products" + "/" + id;
      DecodeItem(base, w, "products", id);
    }
  }

  /** `create`: POST to `/products`; the payload is not sent; the response is returned whole. */
  function Create(res: ResourceOptions, data: Value, response: Value): (x: Exchange)
    ensures x.sent.init.body == None
    ensures x.sent.init.headers == FixedHeaders(res.request.accessToken)
    ensures x.result == Resolved(response)
    ensures x.sent.url == res.request.baseUrl + "/products"
    ensures Decode(res.request.baseUrl, x.sent) == Some(Endpoint(POST, ["products"], None))
  {
    var x := Perform(res, Call("/products", Some(data), Some(MethodOnly(POST)), Whole), response);
    assert x.sent.url == res.request.baseUrl + "/" + "products";
    DecodeCollection(res.request.baseUrl, x.sent, "products");
    x
  }

  /** `get`: no method option, so GET, to `/products/<id>`; the response is returned whole. */
  function Get(res: ResourceOptions, id: string, response: Value): (x: Exchange)
    ensures x.sent.url == res.request.baseUrl + "/products/" + id
    ensures SegmentSafe(id) ==> Decode(res.request.baseUrl, x.sent) == Some(Endpoint(GET, ["products", id], None))
    ensures x.sent.init.verb == None
    ensures x.sent.init.body == None
    ensures x.sent.init.headers == FixedHeaders(res.request.accessToken)
    ensures x.result == Resolved(response)
  {
    var x := Perform(res, Call(ItemPath(id), None, None, Whole), response);
    ItemRoute(res.request.baseUrl, x.sent, id);
    x
  }

  /** `update`: PUT to `/products/<id>`; the partial payload is not sent; the response is returned whole. */
  function Update(res: ResourceOptions, id: string, data: Value, response: Value): (x: Exchange)
    ensures x.sent.url == res.request.baseUrl + "/products/" + id
    ensures x.sent.init.verb == Some(PUT)
    ensures SegmentSafe(id) ==> Decode(res.request.baseUrl, x.sent) == Some(Endpoint(PUT, ["products", id], None))
    ensures x.sent.init.body == None
    ensures x.sent.init.headers == FixedHeaders(res.request.accessToken)
    ensures x.result == Resolved(response)
  {
    var x := Perform(res, Call(ItemPath(id), Some(data), Some(MethodOnly(PUT)), Whole), response);
    ItemRoute(res.request.baseUrl, x.sent, id);
    x
  }

  /** `delete`: DELETE to `/products/<id>` with no payload; the response is returned whole. */
  function Delete(res: ResourceOptions, id: string, response: Value): (x: Exchange)
    ensures x.sent.url == res.request.baseUrl + "/products/" + id
    ensures x.sent.init.verb == Some(DELETE)
    ensures SegmentSafe(id) ==> Decode(res.request.baseUrl, x.sent) == Some(Endpoint(DELETE, ["products", id], None))
    ensures x.sent.init.body == None
    ensures x.sent.init.headers == FixedHeaders(res.request.accessToken)
    ensures x.result == Resolved(response)
  {
    var x := Perform(res, Call(ItemPath(id), None, Some(MethodOnly(DELETE)), Whole), response);
    ItemRoute(res.request.baseUrl, x.sent, id);
    x
  }
}

=== FILE: query.dfy ===
/** The query-string builder of the `list` operations: one `key=value` piece per
    parameter in key order, pieces joined by `&`, array values comma-joined,
    nothing escaped. */
module Query {
  import opened Strings

  /** A parameter value as it reaches the builder: text, or an array of text. */
  datatype ParamValue = Text(s: string) | Items(items: seq<string>)

  /** The parameters object, in the order `Object.keys` lists its own keys. */
  type Params = seq<(string, ParamValue)>

  /** The text a value contributes. In plan.ts an array is joined with `,`
      explicitly; in subscription.ts `key + '=' + value` coerces an array with
      `Array.prototype.toString`, which is the same comma join. */
  function ValueText(v: ParamValue): string {
    match v
    case Text(s) => s
    case Items(items) => Join(items, ',')
  }

  /** `key + '=' + value`: the key verbatim, one `=`, the value text verbatim. */
  function Pair(key: string, v: ParamValue): (r: string)
    ensures |r| == |key| + 1 + |ValueText(v)|
    ensures r[..|key|] == key && r[|key|] == '=' && r[|key| + 1..] == ValueText(v)
  {
    key + "=" + ValueText(v)
  }

  function Pairs(p: Params): (r: seq<string>)
    ensures |r| == |p|
    ensures forall i :: 0 <= i < |p| ==> r[i] == Pair(p[i].0, p[i].1)
  {
    seq(|p|, i requires 0 <= i < |p| => Pair(p[i].0, p[i].1))
  }

  /** The query text placed after `?`; empty exactly when there are no parameters. */
  function Serialize(p: Params): (q: string)
    ensures q == "" <==> |p| == 0
  {
    var pieces := Pairs(p);
    if |p| == 0 then Join(pieces, '&')
    else
      JoinPrefix(pieces, '&');
      Join(pieces, '&')
  }

  /** The (key, text) pairs a reader of the query should find, in key order. */
  function Rendered(p: Params): (r: seq<(string, string)>)
    ensures |r| == |p|
  {
    seq(|p|, i requires 0 <= i < |p| => (p[i].0, ValueText(p[i].1)))
  }

  /** How a receiver reads one piece: key up to the first `=`, the rest as value. */
  function ParsePair(piece: string): (string, string) {
    var (key, value) := SplitFirst(piece, '=');
    (key, value.GetOr(""))
  }

  /** How a receiver reads a query string: pieces between `&`, each read by `ParsePair`. */
  function Parse(q: string): seq<(string, string)> {
    if q == "" then []
    else
      var pieces := Split(q, '&');
      seq(|pieces|, i requires 0 <= i < |pieces| => ParsePair(pieces[i]))
  }

  predicate KeySafe(key: string) {
    '&' !in key && '=' !in key && '#' !in key && UrlVerbatim(key)
  }

  predicate ValueSafe(v: ParamValue) {
    var t := ValueText(v);
    '&' !in t && '#' !in t && UrlVerbatim(t)
  }

  /** Parameters whose keys and values hold none of the characters a receiver
      treats as structure, and nothing a URL parser strips or the server decodes;
      the builder escapes nothing, so only these read back as given. */
  predicate Safe(p: Params) {
    forall i :: 0 <= i < |p| ==> KeySafe(p[i].0) && ValueSafe(p[i].1)
  }

  lemma PairsAvoid(p: Params, c: char)
    requires Safe(p)
    requires c == '&' || c == '#'
    ensures AllAvoid(Pairs(p), c)
  {
    forall i | 0 <= i < |p|
      ensures c !in Pairs(p)[i]
    {
      assert ValueSafe(p[i].1);
    }
  }

  lemma SafeIsReadable(p: Params)
    requires Safe(p)
    ensures Readable(p)
  {
    forall i | 0 <= i < |p|
      ensures '&' !in ValueText(p[i].1)
    {
      assert ValueSafe(p[i].1);
    }
  }

  /** A serialised query contains no `#`, so no part of it is taken for a fragment. */
  lemma SerializeNoFragment(p: Params)
    requires Safe(p)
    ensures '#' !in Serialize(p)
  {
    PairsAvoid(p, '#');
    JoinAvoids(Pairs(p), '&', '#');
  }

  /** Parameters a query reader can tell apart: no `&` or `=` in a key, no `&` in a value text. */
  predicate Readable(p: Params) {
    forall i :: 0 <= i < |p| ==> '&' !in p[i].0 && '=' !in p[i].0 && '&' !in ValueText(p[i].1)
  }

  /** A receiver reads back every key and value text, in key order, one pair per key. */
  lemma RoundTrip(p: Params)
    requires Readable(p)
    ensures Parse(Serialize(p)) == Rendered(p)
  {
    if |p| > 0 {
      var pieces := Pairs(p);
      forall i | 0 <= i < |p|
        ensures '&' !in pieces[i]
      {
        assert pieces[i] == p[i].0 + "=" + ValueText(p[i].1);
      }
      SplitJoin(pieces, '&');
      forall i | 0 <= i < |p|
        ensures ParsePair(pieces[i]) == Rendered(p)[i]
      {
        SplitFirstAt(p[i].0, ValueText(p[i].1), '=');
      }
    }
  }

  /** Pieces are separated by single `&`: with `&` in no key or value text,
      `n >= 1` parameters give exactly `n - 1` of them. */
  lemma Separators(p: Params)
    requires forall i :: 0 <= i < |p| ==> '&' !in p[i].0 && '&' !in ValueText(p[i].1)
    requires |p| >= 1
    ensures Count(Serialize(p), '&') == |p| - 1
  {
    var pieces := Pairs(p);
    forall i | 0 <= i < |p|
      ensures '&' !in pieces[i]
    {
      assert pieces[i] == p[i].0 + "=" + ValueText(p[i].1);
    }
    JoinCount(pieces, '&');
  }

  /** With `=` in no key or value text, each parameter contributes exactly one `=`. */
  lemma OneEqualsPerPair(p: Params)
    requires forall i :: 0 <= i < |p| ==> '=' !in p[i].0 && '=' !in ValueText(p[i].1)
    ensures Count(Serialize(p), '=') == |p|
  {
    var pieces := Pairs(p);
    forall i | 0 <= i < |p|
      ensures Count(pieces[i], '=') == 1
    {
      var key, text := p[i].0, ValueText(p[i].1);
      assert pieces[i] == key + ("=" + text);
      CountAppend(key, "=" + text, '=');
      CountAppend("=", text, '=');
      CountAbsent(key, '=');
      CountAbsent(text, '=');
    }
    JoinCountEach(pieces, '&', '=', 1);
  }

  /** A non-empty array value reads back item by item when no item holds a comma. */
  lemma ItemsRoundTrip(items: seq<string>)
    requires |items| >= 1
    requires AllAvoid(items, ',')
    ensures Split(ValueText(Items(items)), ',') == items
  {
    SplitJoin(items, ',');
  }

  /** Because nothing is escaped, a value holding `&` and `=` serialises exactly
      like two separate parameters, and an array like its comma-joined text. */
  lemma NoEscaping()
    ensures Serialize([("a", Text("1&b=2"))]) == Serialize([("a", Text("1")), ("b", Text("2"))])
    ensures Serialize([("ids", Items(["1", "2"]))]) == Serialize([("ids", Text("1,2"))])
  {
    var two := Pairs([("a", Text("1")), ("b", Text("2"))]);
    assert two[0] == "a=1" && two[1] == "b=2";
    assert Join(two, '&') == "a=1" + "&" + "b=2";
    var one := Pairs([("a", Text("1&b=2"))]);
    assert one[0] == "a=1&b=2";
    assert Join(["1", "2"], ',') == "1,2";
  }

  /** A single parameter serialises as its key, one `=`, and its value text, all verbatim. */
  lemma SerializeOne(key: string, v: ParamValue)
    ensures Serialize([(key, v)]) == key + "=" + ValueText(v)
  {
    assert Pairs([(key, v)]) == [Pair(key, v)];
  }

  /** One more parameter appends `&`, its key, `=` and its value text verbatim,
      whatever characters they hold: nothing is escaped. */
  lemma SerializeAppend(p: Params, key: string, v: ParamValue)
    requires |p| >= 1
    ensures Serialize(p + [(key, v)]) == Serialize(p) + "&" + key + "=" + ValueText(v)
  {
    assert Pairs(p + [(key, v)]) == Pairs(p) + [Pair(key, v)];
    JoinSnoc(Pairs(p), Pair(key, v), '&');
  }
}

=== FILE: recharge.dfy ===
/** The client object: its fixed base URL, and the resources it wires to its
    `request` function. */
module Recharge {
  import opened Wrappers
  import opened JsValues
  import opened Client
  import Product
  import Subscription

  const BaseUrl: string := "https://api.rechargeapps.com"

  datatype ClientOptions = ClientOptions(accessToken: string)

  /** The constructed client. Only the product and subscription resources are
      attached; no plan resource is. */
  datatype Recharge = Recharge(
    options: ClientOptions,
    baseUrl: string,
    product: ResourceOptions,
    subscription: ResourceOptions)

  /** `new Recharge(options)`. */
  function New(options: ClientOptions): (c: Recharge)
    ensures c.product == c.subscription
    ensures c.product.request == Requester(options.accessToken, BaseUrl)
    ensures c.baseUrl == BaseUrl && c.options == options
  {
    var request := Requester(options.accessToken, BaseUrl);
    Recharge(options, BaseUrl, ResourceOptions(request), ResourceOptions(request))
  }

  /** Every request the client's resources issue goes to the Recharge host with
      the path appended directly, carries the configured token and JSON content
      type, and carries no other header. */
  lemma RequestsGoToRecharge(options: ClientOptions, path: string, data: Option<Value>, o: Option<RequestOptions>)
    ensures var w := Request(New(options).product.request, path, data, o);
            && w.url == "https://api.rechargeapps.com" + path
            && w.init.headers == [("X-Recharge-Access-Token", options.accessToken), ("Content-Type", "application/json")]
  {
  }

  /** Subscription `update` sends exactly what product `update` sends for the
      same id, whatever the two payloads: both reach `/products/<id>` by PUT. */
  lemma SubscriptionUpdateHitsProductRoute(options: ClientOptions, id: string, d1: Value, d2: Value, r1: Value, r2: Value)
    ensures Subscription.Update(New(options).subscription, id, d1, r1).sent
         == Product.Update(New(options).product, id, d2, r2).sent
  {
  }
}

=== FILE: resource.dfy ===
/** The shape shared by every resource operation: one call of the client's
    `request`, then either the whole awaited result or one field of it. */
module Resource {
  import opened Wrappers
  import opened JsValues
  import opened Client
  import opened Routes
  import Query

  /** What an operation returns of the awaited result. */
  datatype Unwrap = Whole | Field(name: string)

  /** `this.options.request(path, data, options)` and what is done with its result. */
  datatype Call = Call(path: string, data: Option<Value>, options: Option<RequestOptions>, unwrap: Unwrap)

  /** What a caller observes: the request handed to `fetch`, and how the
      operation's promise settles given the decoded response body. */
  datatype Exchange = Exchange(sent: WireRequest, result: Outcome)

  function Settle(u: Unwrap, response: Value): Outcome {
    match u
    case Whole => Resolved(response)
    case Field(name) => Property(response, name)
  }

  function Perform(res: ResourceOptions, c: Call, response: Value): Exchange {
    Exchange(Request(res.request, c.path, c.data, c.options), Settle(c.unwrap, response))
  }

  /** The server reads a GET of collection `name` whose query parses back to `params`, in order. */
  predicate ListsWith(base: string, w: WireRequest, name: string, params: Query.Params) {
    var e := Decode(base, w);
    && e.Some?
    && e.value.verb == GET
    && e.value.segments == [name]
    && e.value.query.Some?
    && Query.Parse(e.value.query.value) == Query.Rendered(params)
  }

  /** The path of a listing before its query: `/<name>?`, the `?` always present. */
  function ListPrefix(name: string): string {
    "/" + name + "?"
  }

  /** `/<name>?` followed by the serialised parameters: exactly `/<name>?` when
      there are none, and read back by the server when they are safe. */
  lemma ListRoute(base: string, w: WireRequest, name: string, params: Query.Params)
    requires w.url == base + ListPrefix(name) + Query.Serialize(params)
    requires SegmentSafe(name)
    requires w.init.verb == None
    ensures w.url == base + ListPrefix(name) <==> |params| == 0
    ensures Query.Safe(params) ==> ListsWith(base, w, name, params)
  {
    if Query.Safe(params) {
      assert w.url == base + "/" + name + "?" + Query.Serialize(params);
      Query.SerializeNoFragment(params);
      DecodeListing(base, w, name, Query.Serialize(params));
      Query.SafeIsReadable(params);
      Query.RoundTrip(params);
    }
  }

  /** A `list` operation on collection `name`: GET to `/<name>?` plus the
      serialised parameters, no payload, result unwrapped from `field`. */
  function Listing(res: ResourceOptions, name: string, field: string, params: Query.Params, response: Value): (x: Exchange)
    requires SegmentSafe(name)
    ensures x.sent.url == res.request.baseUrl + ListPrefix(name) + Query.Serialize(params)
    ensures x.sent.init.verb == None && SentMethod(x.sent.init) == GET
    ensures x.sent.init.headers == FixedHeaders(res.request.accessToken)
    ensures x.sent.url == res.request.baseUrl + ListPrefix(name) <==> |params| == 0
    ensures Query.Safe(params) ==> ListsWith(res.request.baseUrl, x.sent, name, params)
    ensures x.sent.init.body == None
    ensures x.result == Property(response, field)
  {
    var x := Perform(res, Call(ListPrefix(name) + Query.Serialize(params), None, None, Field(field)), response);
    ListRoute(res.request.baseUrl, x.sent, name, params);
    x
  }
}

=== FILE: routes.dfy ===
/** How the receiving server reads a request: the method, the path segments
    after the base URL, and the query after `?`. Stating routes in these terms
    says what each operation reaches, not how its path text is assembled. */
module Routes {
  import opened Wrappers
  import opened Strings
  import opened Client

  datatype Endpoint = Endpoint(verb: Method, segments: seq<string>, query: Option<string>)

  /** The endpoint a request under `base` addresses; any `#` fragment is not sent. */
  function Decode(base: string, w: WireRequest): Option<Endpoint> {
    if |w.url| < |base| || w.url[..|base|] != base then None
    else
      var target := SplitFirst(w.url[|base|..], '#').0;
      if |target| == 0 || target[0] != '/' then None
      else
        var (path, query) := SplitFirst(target[1..], '?');
        Some(Endpoint(SentMethod(w.init), Split(path, '/'), query))
  }

  /** Text `Decode` reads as one path segment: no separator of path, query or fragment. */
  predicate OneSegment(s: string) {
    '/' !in s && '?' !in s && '#' !in s
  }

  /** Text that stays one path segment, spelled as written, when pasted into a
      path: no separator of path, query or fragment; no `\`, which a URL parser
      reads as `/` in an https URL; nothing the parser strips or the server
      decodes; and not the `.` or `..` segment the parser resolves away. */
  predicate SegmentSafe(s: string) {
    && OneSegment(s)
    && '\\' !in s
    && UrlVerbatim(s)
    && s != "." && s != ".."
  }

  lemma {:induction false} SplitSingle(s: string, c: char)
    requires c !in s
    ensures Split(s, c) == [s]
  {
  }

  lemma {:induction false} SplitPair(a: string, b: string, c: char)
    requires c !in a && c !in b
    ensures Split(a + [c] + b, c) == [a, b]
  {
    SplitFirstAt(a, b, c);
    SplitSingle(b, c);
  }

  /** `base/name` addresses the collection `name`, with no query. */
  lemma DecodeCollection(base: string, w: WireRequest, name: string)
    requires w.url == base + "/" + name
    requires OneSegment(name)
    ensures Decode(base, w) == Some(Endpoint(SentMethod(w.init), [name], None))
  {
    assert w.url[|base|..] == "/" + name;
    assert ('#' in "/" + name) == false;
    assert ("/" + name)[1..] == name;
    SplitSingle(name, '/');
  }

  /** `base/name/id` addresses item `id` of collection `name`, with no query. */
  lemma DecodeItem(base: string, w: WireRequest, name: string, id: string)
    requires w.url == base + "/" + name + "/" + id
    requires OneSegment(name) && OneSegment(id)
    ensures Decode(base, w) == Some(Endpoint(SentMethod(w.init), [name, id], None))
  {
    var rest := "/" + name + "/" + id;
    assert w.url[|base|..] == rest;
    assert '#' !in rest;
    assert rest[1..] == name + ['/'] + id;
    assert '?' !in rest[1..];
    SplitPair(name, id, '/');
  }

  /** `base/name?q` addresses collection `name` with query `q`, provided `q` holds no `#`. */
  lemma DecodeListing(base: string, w: WireRequest, name: string, q: string)
    requires w.url == base + "/" + name + "?" + q
    requires OneSegment(name) && '#' !in q
    ensures Decode(base, w) == Some(Endpoint(SentMethod(w.init), [name], Some(q)))
  {
    var rest := "/" + name + "?" + q;
    assert w.url[|base|..] == rest;
    assert '#' !in rest;
    assert rest[1..] == name + ['?'] + q;
    SplitFirstAt(name, q, '?');
    SplitSingle(name, '/');
  }
}

=== FILE: strings.dfy ===
/** Character-level string operations: the `Array.prototype.join` the query
    builders use, and the splitting a receiver uses to read the text back. */
module Strings {
  import opened Wrappers

  /** Number of occurrences of `c` in `s`. */
  function Count(s: string, c: char): nat {
    if |s| == 0 then 0
    else (if s[0] == c then 1 else 0) + Count(s[1..], c)
  }

  /** The text before the first `c`, and everything after it when `c` occurs. */
  function SplitFirst(s: string, c: char): (r: (string, Option<string>))
    ensures r.1.None? ==> r.0 == s && c !in s
    ensures r.1.Some? ==> s == r.0 + [c] + r.1.value && c !in r.0
  {
    if |s| == 0 then ("", None)
    else if s[0] == c then ("", Some(s[1..]))
    else
      var rest := SplitFirst(s[1..], c);
      assert s == [s[0]] + s[1..];
      ([s[0]] + rest.0, rest.1)
  }

  /** The pieces of `s` between occurrences of `c` (always at least one). */
  function Split(s: string, c: char): (r: seq<string>)
    ensures |r| >= 1
    ensures forall i :: 0 <= i < |r| ==> c !in r[i]
    decreases |s|
  {
    var (head, tail) := SplitFirst(s, c);
    if tail.None? then [head] else [head] + Split(tail.value, c)
  }

  /** `xs` joined with `sep` between neighbours, as JavaScript's `Array.prototype.join`. */
  function Join(xs: seq<string>, sep: char): string {
    if |xs| == 0 then ""
    else if |xs| == 1 then xs[0]
    else xs[0] + [sep] + Join(xs[1..], sep)
  }

  /** Text that reaches a server as written inside a URL: no tab, CR or LF, which
      a WHATWG URL parser (the one `fetch` uses) strips, and no `%`, which the
      server percent-decodes. */
  predicate UrlVerbatim(s: string) {
    '\t' !in s && '\r' !in s && '\n' !in s && '%' !in s
  }

  /** None of the strings in `xs` contains `c`. */
  predicate AllAvoid(xs: seq<string>, c: char) {
    forall i :: 0 <= i < |xs| ==> c !in xs[i]
  }

  /** When `c` does not occur before a given occurrence, that occurrence is the one `SplitFirst` finds. */
  lemma {:induction false} SplitFirstAt(a: string, b: string, c: char)
    requires c !in a
    ensures SplitFirst(a + [c] + b, c) == (a, Some(b))
  {
    if |a| == 0 {
      assert a + [c] + b == [c] + b;
    } else {
      assert (a + [c] + b)[1..] == a[1..] + [c] + b;
      SplitFirstAt(a[1..], b, c);
      assert [a[0]] + a[1..] == a;
    }
  }

  /** `Split` reads back what `Join` wrote, provided the separator occurs in none of the pieces. */
  lemma {:induction false} SplitJoin(xs: seq<string>, sep: char)
    requires |xs| >= 1
    requires AllAvoid(xs, sep)
    ensures Split(Join(xs, sep), sep) == xs
  {
    if |xs| == 1 {
      assert SplitFirst(xs[0], sep).1.None?;
    } else {
      SplitFirstAt(xs[0], Join(xs[1..], sep), sep);
      SplitJoin(xs[1..], sep);
      assert [xs[0]] + xs[1..] == xs;
    }
  }

  /** A character occurring in neither the pieces nor the separator does not occur in the join. */
  lemma {:induction false} JoinAvoids(xs: seq<string>, sep: char, c: char)
    requires c != sep
    requires AllAvoid(xs, c)
    ensures c !in Join(xs, sep)
  {
    if |xs| > 1 {
      JoinAvoids(xs[1..], sep, c);
    }
  }

  lemma {:induction false} CountAppend(a: string, b: string, c: char)
    ensures Count(a + b, c) == Count(a, c) + Count(b, c)
  {
    if |a| > 0 {
      assert (a + b)[1..] == a[1..] + b;
      CountAppend(a[1..], b, c);
    } else {
      assert a + b == b;
    }
  }

  lemma {:induction false} CountAbsent(s: string, c: char)
    requires c !in s
    ensures Count(s, c) == 0
  {
    if |s| > 0 {
      CountAbsent(s[1..], c);
    }
  }

  /** A join of `n` pieces free of the separator holds exactly `n - 1` separators. */
  lemma {:induction false} JoinCount(xs: seq<string>, sep: char)
    requires |xs| >= 1
    requires AllAvoid(xs, sep)
    ensures Count(Join(xs, sep), sep) == |xs| - 1
  {
    CountAbsent(xs[0], sep);
    if |xs| > 1 {
      JoinCount(xs[1..], sep);
      CountAppend(xs[0] + [sep], Join(xs[1..], sep), sep);
      CountAppend(xs[0], [sep], sep);
    }
  }

  /** When every piece holds `c` exactly `k` times and `c` is not the separator,
      the join holds it `k` times per piece. */
  lemma {:induction false} JoinCountEach(xs: seq<string>, sep: char, c: char, k: nat)
    requires c != sep
    requires forall i :: 0 <= i < |xs| ==> Count(xs[i], c) == k
    ensures Count(Join(xs, sep), c) == k * |xs|
  {
    if |xs| > 1 {
      var rest := xs[1..];
      JoinCountEach(rest, sep, c, k);
      assert Join(xs, sep) == (xs[0] + [sep]) + Join(rest, sep);
      CountAppend(xs[0] + [sep], Join(rest, sep), c);
      CountAppend(xs[0], [sep], c);
      assert Count([sep], c) == 0;
      assert k * |xs| == k + k * |rest|;
    }
  }

  /** A join starts with its first piece. */
  lemma {:induction false} JoinPrefix(xs: seq<string>, sep: char)
    requires |xs| >= 1
    ensures |Join(xs, sep)| >= |xs[0]|
    ensures Join(xs, sep)[..|xs[0]|] == xs[0]
  {
    if |xs| > 1 {
      assert Join(xs, sep) == xs[0] + ([sep] + Join(xs[1..], sep));
    }
  }

  /** Joining one more piece appends the separator and that piece. */
  lemma {:induction false} JoinSnoc(xs: seq<string>, x: string, sep: char)
    requires |xs| >= 1
    ensures Join(xs + [x], sep) == Join(xs, sep) + [sep] + x
  {
    if |xs| > 1 {
      assert (xs + [x])[1..] == xs[1..] + [x];
      JoinSnoc(xs[1..], x, sep);
    } else {
      assert (xs + [x])[1..] == [x];
    }
  }
}

=== FILE: subscription.dfy ===
/** The subscription resource: string ids, results unwrapped from
    `subscription` / `subscriptions`, and an `update` that addresses the
    product route. */
module Subscription {
  import opened Wrappers
  import opened JsValues
  import opened Client
  import opened Routes
  import opened Resource
  import Query

  /** `get`: no method option, so GET, to `/subscriptions/<id>`; the result is the response's `subscription`. */
  function Get(res: ResourceOptions, id: string, response: Value): (x: Exchange)
    ensures x.sent.url == res.request.baseUrl + "/subscriptions/" + id
    ensures SegmentSafe(id) ==>
              Decode(res.request.baseUrl, x.sent) == Some(Endpoint(GET, ["subscriptions", id], None))
    ensures x.sent.init.verb == None
    ensures x.sent.init.body == None
    ensures x.sent.init.headers == FixedHeaders(res.request.accessToken)
    ensures x.result == Property(response, "subscription")
  {
    var x := Perform(res, Call("/subscriptions/" + id, None, None, Field("subscription")), response);
    if SegmentSafe(id) then
      assert x.sent.url == res.request.baseUrl + "/" + "subscriptions" + "/" + id;
      DecodeItem(res.request.baseUrl, x.sent, "subscriptions", id);
      x
    else x
  }

  /** `list`: GET to `/subscriptions?` followed by the serialised parameters; the result is the response's `subscriptions`. */
  function List(res: ResourceOptions, params: Query.Params, response: Value): (x: Exchange)
    ensures x.sent.url == res.request.baseUrl + ListPrefix("subscriptions") + Query.Serialize(params)
    ensures x.sent.init.verb == None && SentMethod(x.sent.init) == GET
    ensures x.sent.init.headers == FixedHeaders(res.request.accessToken)
    ensures x.sent.url == res.request.baseUrl + ListPrefix("subscriptions") <==> |params| == 0
    ensures Query.Safe(params) ==> ListsWith(res.request.baseUrl, x.sent, "subscriptions", params)
    ensures x.sent.init.body == None
    ensures x.result == Property(response, "subscriptions")
  {
    Listing(res, "subscriptions", "subscriptions", params, response)
  }

  /** `update`: PUT to `/products/<id>` -- the product route, not `/subscriptions/<id>`;
      the payload is not sent; the result is the response's `subscription`. */
  function Update(res: ResourceOptions, id: string, data: Value, response: Value): (x: Exchange)
    ensures x.sent.url == res.request.baseUrl + "/products/" + id
    ensures x.sent.init.verb == Some(PUT)
    ensures SegmentSafe(id) ==>
              Decode(res.request.baseUrl, x.sent) == Some(Endpoint(PUT, ["products", id], None))
    ensures x.sent.init.body == None
    ensures x.sent.init.headers == FixedHeaders(res.request.accessToken)
    ensures x.result == Property(response, "subscription")
  {
    var x := Perform(res, Call("/products/" + id, Some(data), Some(MethodOnly(PUT)), Field("subscription")), response);
    if SegmentSafe(id) then
      assert x.sent.url == res.request.baseUrl + "/" + "products" + "/" + id;
      DecodeItem(res.request.baseUrl, x.sent, "products", id);
      x
    else x
  }

  /** The payload `swapProduct` builds: the two external ids under `ecommerce`, and nothing else. */
  function SwapPayload(productId: string, variantId: string): (p: Value)
    ensures p.Obj? && p.fields.Keys == {"external_variant_id", "external_product_id"}
    ensures forall k :: k in p.fields ==> p.fields[k].Obj? && p.fields[k].fields.Keys == {"ecommerce"}
    ensures Lookup(p, ["external_variant_id", "ecommerce"]) == Some(Str(variantId))
    ensures Lookup(p, ["external_product_id", "ecommerce"]) == Some(Str(productId))
  {
    var p := Obj(map[
      "external_variant_id" := Obj(map["ecommerce" := Str(variantId)]),
      "external_product_id" := Obj(map["ecommerce" := Str(productId)])
    ]);
    assert ["external_variant_id", "ecommerce"][1..] == ["ecommerce"];
    assert ["external_product_id", "ecommerce"][1..] == ["ecommerce"];
    p
  }

  /** `swapProduct`: exactly `update` with the swap payload, so the same route, verb and unwrapping. */
  function SwapProduct(res: ResourceOptions, id: string, productId: string, variantId: string, response: Value): (x: Exchange)
    ensures x == Update(res, id, SwapPayload(productId, variantId), response)
    ensures x.sent.init.verb == Some(PUT)
    ensures SegmentSafe(id) ==>
              Decode(res.request.baseUrl, x.sent) == Some(Endpoint(PUT, ["products", id], None))
    ensures x.sent.init.body == None
    ensures x.sent.init.headers == FixedHeaders(res.request.accessToken)
    ensures x.result == Property(response, "subscription")
  {
    Update(res, id, SwapPayload(productId, variantId), response)
  }

  /** Since the payload is dropped, the product and variant ids never reach the
      server: every swap of one subscription sends the same request. */
  lemma SwapIdsNeverSent(res: ResourceOptions, id: string, p1: string, v1: string, p2: string, v2: string, response: Value)
    ensures SwapProduct(res, id, p1, v1, response).sent == SwapProduct(res, id, p2, v2, response).sent
  {
  }
}

=== FILE: wrappers.dfy ===
/** The optional value used throughout the model for JavaScript's "absent"
    (an `undefined` argument, a missing field, a character that does not occur). */
module Wrappers {

  datatype Option<+T> = None | Some(value: T) {

    /** The carried value, or `default` when there is none. */
    function GetOr(default: T): T {
      match this
      case Some(v) => v
      case None => default
    }
  }
}
